=== FILE: README.md ===
# Bazaar directory: persistence and search, modelled in Dafny

The server of this bazaar directory keeps two flat collections, events and
booths, each stored as one JSON array. The GET handlers only read a
collection. Every handler that changes a collection reads it whole, filters
it, appends to it or updates one position, and writes it back whole. Records are JSON objects built with object spread, which is
right-biased map union (`a + b` in Dafny). The home page and the event page
each filter what they fetched with a case-insensitive text test. The event
page's test is the same as the server's booth search.

Modules:

- `Json` (json.dfy): JSON values, records as `map<string, Value>`, and
  `Eval`, the outcome of an expression that may throw a TypeError.
- `Text` (text.dfy): `toLowerCase` (ASCII), `includes`, and the decimal
  rendering of the millisecond clock.
- `Sequences` (sequences.dfy): `filter`, `find` and `findIndex`, plus
  order-preserving subsequences.
- `Uploads` (uploads.dfy): the stored-filename rule for uploaded files.
- `Server` (server.dfy): the handlers' pure logic: lookups, the records that
  create and update build, the delete and list filters, and the booth search.
- `ServerStore` (store.dfy): class `Store`, whose fields `events` and
  `booths` hold the two files. It has one method per route.
- `Home` (home.dfy): the home page's null-safe event filter.
- `EventDetails` (event_details.dfy): the event page's booth filter, proved
  equal to the server search.

The clock readings are parameters: `Date.now()` for ids, the middleware's
own `Date.now()` per stored file, and the ISO time string. The list of files
the upload middleware accepted is also a parameter. A handler that would
throw is modelled as `Response.ServerError` (HTTP 500).

Three small helpers spell out JavaScript's evaluation rules and have no row
of their own: `Server.LowerField` (an unguarded `toLowerCase`, which throws
on anything but a string), `Home.OptionalIncludes` (the optional chain
`v?.toLowerCase()`, which passes over a missing or null value) and
`EventDetails.Or` (the short-circuit `||` when either side may throw). What
they promise is carried by `Server.SearchMatch`, `Server.SearchThrowsWithoutProducts`,
`Home.EventMatch`, `Home.NullSafe`, `Home.EventKeptIff` and
`EventDetails.OrAssociative`.

## Model

| member | source | states |
|---|---|---|
| Text.IncludesIff | server/server.js:183 | `includes` holds exactly when the query occurs at some position of the field |
| Text.LowerIdempotent | server/server.js:183 | lowering an already lowered query changes nothing |
| Text.Decimal | server/server.js:69 | the generated id is a non-empty run of decimal digits, with at least two digits exactly from 10 on |
| Text.DecimalInjective | server/server.js:69 | different clock readings give different generated ids |
| Uploads.StoredNameRoundTrip | server/server.js:24 | splitting a stored filename at its first dash gives back the clock value and the original name |
| Uploads.StoredNamesDiffer | server/server.js:24 | the same original name stored at two different clock readings gets two different filenames |
| Uploads.StoredName | server/server.js:24 | the stored filename is the decimal clock value, then a dash at that position, then exactly the original name |
| Uploads.StoredNames | server/server.js:151 | `photos` lists one stored filename per accepted file, in upload order; no files give an empty list |
| Sequences.FilterIsSubsequence | server/server.js:112 | the survivors of a filter keep their relative order |
| Sequences.FilterCounts | server/server.js:112 | a filter keeps every passing element exactly as often as it occurs, and removes every other |
| Sequences.FilterLengthUnchangedIff | server/server.js:164-169 | a filter keeps the count exactly when it rejects nothing |
| Sequences.FindAtFindIndex | server/server.js:56 | `find` returns the element at the position `findIndex` reports, and nothing when that is -1 |
| Server.EventIndex | server/server.js:87 | the position of the first event whose id is the parameter (strict equality), or -1 exactly when there is none |
| Server.FindEvent | server/server.js:56-57 | the first event with the id, or None exactly when no event has it |
| Server.ImageValue | server/server.js:71 | the `image` of a new event is null exactly when nothing was uploaded; otherwise a filename from which the clock value and original name split back out |
| Server.NewEvent | server/server.js:68-73 | the new event has every body field, except that `image` (uploaded filename or null) and `createdAt` (now) come from the server; a body `id` replaces the generated id |
| Server.CreatedEventIsFound | server/server.js:67-75 | after a create with no body id, and an id no stored event has, looking up the generated id returns the new event |
| Server.MergeUpdate | server/server.js:93-99 | the body replaces the fields it names, `id` included; other fields keep their values; `image` changes only on upload, or vanishes if there was none before; `updatedAt` is now |
| Server.UpdatedEventIsFound | server/server.js:86-101 | an update whose body has no `id` leaves the event findable by its id, and the lookup returns the updated record |
| Server.RemoveEvent | server/server.js:112 | keeps exactly the events whose id differs from the parameter, each as often as stored, in order |
| Server.RemoveBoothsOf | server/server.js:120 | keeps exactly the booths whose `eventId` differs from the deleted id, each as often as stored, in order |
| Server.DeleteEventCascades | server/server.js:110-124 | after an event delete no event with the id is found and listing that event's booths returns nothing |
| Server.DeleteEventIdempotent | server/server.js:108-125 | deleting an event twice leaves both collections as deleting it once does |
| Server.BoothsForEvent | server/server.js:130-139 | with a truthy `eventId`, exactly the booths of that event, each as often as stored, in store order; with it absent or empty, every booth |
| Server.NewBooth | server/server.js:148-153 | the new booth has every body field (no `eventId` check), `photos` the stored filenames and `createdAt` now; a body `id` replaces the generated id |
| Server.CreatedBoothIsListed | server/server.js:147-155 | a new booth is listed under its `eventId`, existing, missing from the events or empty, after the booths already listed there |
| Server.RemoveBooth | server/server.js:165 | keeps exactly the booths whose id differs from the parameter, each as often as stored, in order |
| Server.BoothDeleteNotFoundIff | server/server.js:164-172 | the count is unchanged (404) exactly when no booth has the id |
| Server.BoothDeleteTwice | server/server.js:163-174 | a second delete of the same booth removes nothing more, so it answers 404 |
| Server.SomeProductIncludes | server/server.js:185-187 | false exactly when every product is a string that misses; on an all-string list, true exactly when some product contains the query; throws exactly when a non-string product comes before any match |
| Server.SearchMatch | server/server.js:182-187 | on a booth with string name and description and an array of string products, and a present query, the test does not throw; when it does not throw, the name is a string, the query is present, and the booth passes exactly when its name, its description or one of its products contains the query in lower case |
| Server.Search | server/server.js:182-188 | succeeds exactly when no booth's test throws; then gives, in store order, each booth whose name, description or some product contains the query in lower case, as often as it is stored, and no other |
| Server.SearchMatchesIgnoringCase | server/server.js:183-184 | a booth whose string name, or (with a string name) whose string description, contains the query in lower case passes the search test, whatever its other fields hold |
| Server.SearchFindsByProduct | server/server.js:183-187 | a booth with string name and description and all-string products, one of which contains the query in lower case, passes the search test |
| Server.SearchSearchable | server/server.js:178-191 | over booths with string name and description and an array of string products the search succeeds, and it returns the empty list when no booth mentions the query |
| Server.SearchCaseInsensitive | server/server.js:182-188 | two queries with the same lower-case form give the same search result |
| Server.SearchLoweredQuery | server/server.js:183-186 | lowering the query before sending it changes nothing, since the search lowers it itself |
| Server.SearchThrowsWithoutProducts | server/server.js:185 | a booth without `products` whose name and description miss the query makes the search throw |
| Server.SearchEmptyQuery | server/server.js:182-188 | the empty query returns every booth when every booth has a string name, and throws otherwise |
| Server.SearchWithoutQuery | server/server.js:179-188 | without a `query` parameter the search throws unless there are no booths |
| ServerStore.Store.Open | server/server.js:35-44 | a missing or empty data file starts as an empty collection; a file with content keeps it |
| ServerStore.Store.ListEvents | server/server.js:48-51 | returns every event in store order |
| ServerStore.Store.GetEvent | server/server.js:54-59 | the first event with the id, or 404 exactly when none has it |
| ServerStore.Store.CreateEvent | server/server.js:62-78 | appends exactly the new event at the end and answers 201 with it; booths are untouched |
| ServerStore.Store.UpdateEvent | server/server.js:81-105 | unknown id: 404 and nothing changes; otherwise only that position is replaced by the merge, and the length stays the same |
| ServerStore.Store.DeleteEvent | server/server.js:108-125 | removes the events with the id and the booths of that event, keeping survivors in order; always 204 |
| ServerStore.Store.ListBooths | server/server.js:128-140 | answers 200 with `BoothsForEvent`: the booths of a truthy `eventId`, each as often as stored, in store order, else all booths |
| ServerStore.Store.CreateBooth | server/server.js:142-158 | appends exactly the new booth at the end and answers 201 with it; events are untouched |
| ServerStore.Store.DeleteBooth | server/server.js:161-175 | removes the booths with the id; 404 (collection unchanged) exactly when none had it, else 204 |
| ServerStore.Store.SearchBooths | server/server.js:178-191 | 500 exactly when `Search` throws, which is exactly when the test throws on some booth; else 200 with the value of `Search` |
| Home.SomeOptionalIncludes | client/src/pages/Home.js:48-50 | skips null elements; throws exactly when an element that is neither null nor a string comes before any match; otherwise true exactly when some string element contains the query |
| Home.ProductsMatch | client/src/pages/Home.js:48-50 | a `products` value that is not an array gives no match; otherwise, when it does not throw, a match exactly when some element is a string containing the query |
| Home.EventMatch | client/src/pages/Home.js:42-52 | the test of one event throws exactly when its name or description is neither absent, null nor a string, or its products test throws; a match on another field does not prevent it |
| Home.FilteredEvents | client/src/pages/Home.js:42-53 | succeeds exactly when no event's test throws, and then keeps exactly the events whose test is true, each as often as fetched, in order |
| Home.EventKeptIff | client/src/pages/Home.js:44-52 | an event is kept exactly when its name, its description or an element of an array `products` contains the query |
| Home.NullSafe | client/src/pages/Home.js:44-50 | absent or null name and description, a non-array `products` and null products never make the test throw |
| Home.EmptyQueryKeepsNamed | client/src/pages/Home.js:44-45 | with the empty query, when the filter does not throw, every event with a string name or description is kept |
| EventDetails.OrAssociative | client/src/pages/EventDetails.js:44-46 | a chain of short-circuit ors grouped to the left, as JavaScript groups it, equals the chain grouped to the right, throws included |
| EventDetails.AnyProduct | client/src/pages/EventDetails.js:46-48 | the page's `some` over the products equals the server's, throws included |
| EventDetails.BoothMatch | client/src/pages/EventDetails.js:44-48 | the page's test of one booth, grouped as JavaScript parses it, equals the server's search test |
| EventDetails.FilteredBooths | client/src/pages/EventDetails.js:43-49 | succeeds exactly when no booth's test throws, and then keeps the booths whose test is true, each as often as fetched, in order |
| EventDetails.SameAsServerSearch | client/src/pages/EventDetails.js:43-49 | the page's filter equals the server search for the same query and booths, throws included |
| EventDetails.FilteredBoothsSpec | client/src/pages/EventDetails.js:43-49 | when it does not throw, the filtered list holds each booth whose name, description or some product contains the query in lower case, as often as fetched, and no other |
| EventDetails.NameMatchSuffices | client/src/pages/EventDetails.js:44 | a name containing the query in lower case makes the booth pass the page's test without the other fields being read |
| EventDetails.EmptyQueryKeepsAll | client/src/pages/EventDetails.js:43-49 | the empty query keeps every booth when all names are strings, and throws otherwise |
| EventDetails.ThrowsWithoutProducts | client/src/pages/EventDetails.js:46 | a booth without `products` whose name and description miss the query makes the filter throw |

Behaviours of the code worth knowing:

- Booth creation does not reject a body without `eventId`.
- Deleting an absent event still answers 204. Deleting an absent booth
  answers 404.
- The booth search throws on a booth without `products` unless the name or
  description matches. The admin form never sends `products`, so every booth
  it creates lacks the field. The model keeps the throw (`ServerError`).
- Ids are not unique: two creates in the same millisecond get the same id.
  `Text.DecimalInjective` proves only that distinct clock readings give
  distinct ids.

## Left out

- HTTP wiring: Express routing, CORS, static file serving, JSON body
  parsing, logging and `app.listen`. Only the handler bodies are modelled.
  Status codes are `Response` variants.
- The upload middleware: how it stores files and what it does beyond the
  5-file cap is its own code. The list of accepted files is an input.
- File I/O: reading and writing the JSON files, and parse or I/O errors. A
  stored array element that is not an object is not modelled (a record is
  always a map). Nor is a partial failure between the two writes of an event
  delete.
- Field order inside a record: JSON objects keep key order, maps do not.
- JSON numbers are modelled as integers (`Value.Num`); a fractional number
  cannot be represented. No modelled operation reads a number.
- `toLowerCase` handles only ASCII letters; Unicode case mapping is not
  modelled.
- Query parameters that arrive as arrays (a repeated `eventId` or `query`).
  A parameter is either absent or one string.
- Concurrent requests and lost updates between read-modify-write sequences.
- The pages' data fetching, state setters and rendering, and the admin page
  (form state, `FormData`, its own `eventId` guard).

=== FILE: event_details.dfy ===
/** The booth search of the event page (client/src/pages/EventDetails.js):
    a filter over the booths fetched for one event, with the same unguarded
    test as the server's search. Here it is written with JavaScript's
    short-circuit `||` as a combinator, and proved to agree with
    `Server.SearchMatch`. */
module EventDetails {
  import opened Json
  import opened Text
  import opened Sequences
  import Server

  /** JavaScript `a || b` where either side may throw: `b` only matters
      when `a` evaluated to false. */
  function Or(a: Eval<bool>, b: Eval<bool>): (r: Eval<bool>)
    ensures r == Done(true) <==> a == Done(true) || (a == Done(false) && b == Done(true))
    ensures r == TypeError <==> a == TypeError || (a == Done(false) && b == TypeError)
  {
    match a
    case TypeError => TypeError
    case Done(true) => Done(true)
    case Done(false) => b
  }

  /** `||` is associative, throws included: JavaScript reads `a || b || c`
      as `(a || b) || c`, and that is the same as `a || (b || c)`. */
  lemma OrAssociative(a: Eval<bool>, b: Eval<bool>, c: Eval<bool>)
    ensures Or(Or(a, b), c) == Or(a, Or(b, c))
  {
  }

  /** `v.toLowerCase().includes(searchQuery.toLowerCase())` */
  function LowerIncludes(v: Option<Value>, searchQuery: string): Eval<bool>
  {
    match v
    case Some(Str(s)) => Done(Includes(Lower(s), Lower(searchQuery)))
    case _ => TypeError
  }

  /** `products.some(product => product.toLowerCase().includes(...))`. It
      is the server's `some` over the products, throws included. */
  function AnyProduct(products: seq<Value>, searchQuery: string): (r: Eval<bool>)
    ensures r == Server.SomeProductIncludes(products, Lower(searchQuery))
  {
    if products == [] then Done(false)
    else Or(LowerIncludes(Some(products[0]), searchQuery), AnyProduct(products[1..], searchQuery))
  }

  /** `booth.products.some(...)`: only an array has `some`. */
  function ProductsSome(v: Option<Value>, searchQuery: string): Eval<bool>
  {
    match v
    case Some(Arr(products)) => AnyProduct(products, searchQuery)
    case _ => TypeError
  }

  /** The test of one booth, `name || description || products` grouped to
      the left as JavaScript parses it. The page's test and the server's
      search test agree on every booth. */
  function BoothMatch(booth: Record, searchQuery: string): (r: Eval<bool>)
    ensures r == Server.SearchMatch(booth, Some(searchQuery))
  {
    var name := LowerIncludes(Lookup(booth, "name"), searchQuery);
    var description := LowerIncludes(Lookup(booth, "description"), searchQuery);
    var products := ProductsSome(Lookup(booth, "products"), searchQuery);
    OrAssociative(name, description, products);
    Or(Or(name, description), products)
  }

  function BoothTest(searchQuery: string): Record -> Eval<bool>
  {
    b => BoothMatch(b, searchQuery)
  }

  function BoothHit(searchQuery: string): Record -> bool
  {
    b => BoothMatch(b, searchQuery) == Done(true)
  }

  /** `filteredBooths`: the booths that pass the test, in their fetched
      order, each as often as fetched; the render throws when the test
      throws on some booth. */
  function FilteredBooths(booths: seq<Record>, searchQuery: string): (r: Eval<seq<Record>>)
    ensures r.Done? <==> forall b :: b in booths ==> BoothMatch(b, searchQuery).Done?
    ensures r.Done? ==> IsSubsequence(r.value, booths)
    ensures r.Done? ==> forall b :: multiset(r.value)[b] == if BoothMatch(b, searchQuery) == Done(true) then multiset(booths)[b] else 0
  {
    var r := FilterEval(booths, BoothTest(searchQuery));
    if r.Done? then
      FilterEvalDone(booths, BoothTest(searchQuery), BoothHit(searchQuery));
      FilterIsSubsequence(booths, BoothHit(searchQuery));
      FilterCounts(booths, BoothHit(searchQuery));
      r
    else r
  }

  /** The page filters exactly as the server searches: same booths, same
      order, and it throws on exactly the inputs where the server answers
      500. */
  lemma SameAsServerSearch(booths: seq<Record>, searchQuery: string)
    ensures FilteredBooths(booths, searchQuery) == Server.Search(booths, Some(searchQuery))
  {
    FilterEvalAgree(booths, BoothTest(searchQuery), Server.SearchTest(Some(searchQuery)));
  }

  /** When the filter does not throw, the filtered list holds each fetched
      booth whose name, description or some product contains the query,
      compared in lower case, as often as it was fetched, and no other
      booth. */
  lemma FilteredBoothsSpec(booths: seq<Record>, searchQuery: string)
    ensures FilteredBooths(booths, searchQuery).Done? ==>
              forall b :: multiset(FilteredBooths(booths, searchQuery).value)[b]
                       == if Server.MentionsQuery(b, Lower(searchQuery)) then multiset(booths)[b] else 0
  {
    SameAsServerSearch(booths, searchQuery);
  }

  /** A booth whose name is a string containing the query in lower case
      passes the page's test without its description or products being
      looked at. */
  lemma NameMatchSuffices(booth: Record, searchQuery: string)
    requires HasString(booth, "name") && Includes(Lower(booth["name"].s), Lower(searchQuery))
    ensures BoothMatch(booth, searchQuery) == Done(true)
  {
  }

  /** With an empty query the page keeps every booth, provided every booth
      has a string name; otherwise it throws. */
  lemma EmptyQueryKeepsAll(booths: seq<Record>)
    ensures FilteredBooths(booths, "") == if forall b :: b in booths ==> HasString(b, "name") then Done(booths) else TypeError
  {
    SameAsServerSearch(booths, "");
    Server.SearchEmptyQuery(booths);
  }

  /** A booth that has no `products` and whose name and description both
      miss the query makes the page's filter throw. */
  lemma ThrowsWithoutProducts(booths: seq<Record>, b: Record, searchQuery: string)
    requires b in booths
    requires "products" !in b
    requires HasString(b, "name") && HasString(b, "description")
    requires !Includes(Lower(b["name"].s), Lower(searchQuery)) && !Includes(Lower(b["description"].s), Lower(searchQuery))
    ensures FilteredBooths(booths, searchQuery) == TypeError
  {
  }
}

=== FILE: home.dfy ===
/** The event search of the home page (client/src/pages/Home.js): a filter
    over the fetched events whose test guards every property read with
    optional chaining. The fetched list is any JSON array, so an element may
    be `null` or not an object at all. */
module Home {
  import opened Json
  import opened Text
  import opened Sequences

  /** `v?.toLowerCase().includes(lq)`: a missing or null value gives
      `undefined` (no match); a string is searched; any other value has no
      `toLowerCase` and the call throws. */
  function OptionalIncludes(v: Option<Value>, lq: string): (r: Eval<bool>)
    ensures r == TypeError <==> v.Some? && !v.value.Null? && !v.value.Str?
    ensures r == Done(true) <==> v.Some? && v.value.Str? && Includes(Lower(v.value.s), lq)
  {
    match v
    case None => Done(false)
    case Some(Null) => Done(false)
    case Some(Str(s)) => Done(Includes(Lower(s), lq))
    case Some(_) => TypeError
  }

  /** A value the optional chain reads without throwing: absent, null or a
      string. */
  predicate Tolerated(v: Option<Value>)
  {
    v.None? || v.value.Null? || v.value.Str?
  }

  /** `v.k` is present and a string. */
  predicate StringField(v: Value, k: string)
  {
    Field(v, k).Some? && Field(v, k).value.Str?
  }

  /** A string containing the lowered query once lowered itself. */
  predicate TextHit(v: Option<Value>, lq: string)
  {
    v.Some? && v.value.Str? && Includes(Lower(v.value.s), lq)
  }

  /** `products.some(p => p?.toLowerCase().includes(lq))`: null elements are
      skipped; it stops at the first match; an element that is neither null
      nor a string throws if it is reached. */
  function SomeOptionalIncludes(items: seq<Value>, lq: string): (r: Eval<bool>)
    ensures r.Done? ==> (r.value <==> exists i :: 0 <= i < |items| && TextHit(Some(items[i]), lq))
    ensures (forall i :: 0 <= i < |items| ==> Tolerated(Some(items[i]))) ==> r.Done?
    ensures r == TypeError <==> exists i :: 0 <= i < |items| && !Tolerated(Some(items[i]))
                                           && forall j :: 0 <= j < i ==> !TextHit(Some(items[j]), lq)
  {
    if items == [] then Done(false)
    else match OptionalIncludes(Some(items[0]), lq)
      case TypeError => TypeError
      case Done(true) => Done(true)
      case Done(false) =>
        var r := SomeOptionalIncludes(items[1..], lq);
        assert forall i :: 1 <= i < |items| ==> items[i] == items[1..][i - 1];
        r
  }

  /** `Array.isArray(event?.products) && event.products.some(...)`: a
      `products` value that is not an array contributes no match. */
  function ProductsMatch(event: Value, lq: string): (r: Eval<bool>)
    ensures !(Field(event, "products").Some? && Field(event, "products").value.Arr?) ==> r == Done(false)
    ensures r.Done? ==> (r.value <==> Field(event, "products").Some? && Field(event, "products").value.Arr? &&
                                      exists i :: 0 <= i < |Field(event, "products").value.items|
                                               && TextHit(Some(Field(event, "products").value.items[i]), lq))
  {
    match Field(event, "products")
    case Some(Arr(items)) => SomeOptionalIncludes(items, lq)
    case _ => Done(false)
  }

  /** The test of one event. The name, description and products tests are
      three separate statements, so all three run, and the event is kept
      when any of them matched. So, unlike the server's search, the test
      throws on a name or description that is neither null nor a string
      even when another field matched. */
  function EventMatch(event: Value, query: string): (r: Eval<bool>)
    ensures r.Done? <==> Tolerated(Field(event, "name")) && Tolerated(Field(event, "description"))
                         && ProductsMatch(event, Lower(query)).Done?
  {
    var lq := Lower(query);
    var name := OptionalIncludes(Field(event, "name"), lq);
    var description := OptionalIncludes(Field(event, "description"), lq);
    var products := ProductsMatch(event, lq);
    if name.TypeError? || description.TypeError? || products.TypeError? then TypeError
    else Done(name.value || description.value || products.value)
  }

  function EventTest(query: string): Value -> Eval<bool>
  {
    e => EventMatch(e, query)
  }

  function EventHit(query: string): Value -> bool
  {
    e => EventMatch(e, query) == Done(true)
  }

  /** `filteredEvents`: the events that pass the test, in their fetched
      order, each as often as fetched; the render throws when the test
      throws on some event. */
  function FilteredEvents(events: seq<Value>, query: string): (r: Eval<seq<Value>>)
    ensures r.Done? <==> forall e :: e in events ==> EventMatch(e, query).Done?
    ensures r.Done? ==> IsSubsequence(r.value, events)
    ensures r.Done? ==> forall e :: e in r.value <==> e in events && EventMatch(e, query) == Done(true)
    ensures r.Done? ==> forall e :: multiset(r.value)[e] == if EventMatch(e, query) == Done(true) then multiset(events)[e] else 0
  {
    var r := FilterEval(events, EventTest(query));
    if r.Done? then
      FilterEvalDone(events, EventTest(query), EventHit(query));
      FilterIsSubsequence(events, EventHit(query));
      FilterCounts(events, EventHit(query));
      r
    else r
  }

  /** When the test does not throw, an event is kept exactly when its name,
      its description or one of the elements of an array `products`
      contains the query, all compared in lower case. A missing or null
      field and a non-array `products` simply do not match. */
  lemma EventKeptIff(event: Value, query: string)
    requires EventMatch(event, query).Done?
    ensures EventMatch(event, query).value <==>
              || TextHit(Field(event, "name"), Lower(query))
              || TextHit(Field(event, "description"), Lower(query))
              || (Field(event, "products").Some? && Field(event, "products").value.Arr? &&
                  exists i :: 0 <= i < |Field(event, "products").value.items|
                           && TextHit(Some(Field(event, "products").value.items[i]), Lower(query)))
  {
  }

  /** Absent or null names and descriptions, a `products` value that is not
      an array, and null elements inside `products` never make the test
      throw. */
  lemma NullSafe(event: Value, query: string)
    requires Tolerated(Field(event, "name")) && Tolerated(Field(event, "description"))
    requires Field(event, "products").Some? && Field(event, "products").value.Arr? ==>
               forall i :: 0 <= i < |Field(event, "products").value.items| ==> Tolerated(Some(Field(event, "products").value.items[i]))
    ensures EventMatch(event, query).Done?
  {
  }

  /** With an empty query, when the filter does not throw, every event with
      a string name or description is kept. */
  lemma EmptyQueryKeepsNamed(events: seq<Value>, e: Value)
    requires FilteredEvents(events, "").Done?
    requires e in events
    requires StringField(e, "name") || StringField(e, "description")
    ensures e in FilteredEvents(events, "").value
  {
  }
}

=== FILE: json.dfy ===
/** JSON values as the server stores them and the client receives them.

    A record (an event or a booth) is a JSON object, i.e. a map from field
    names to values. JavaScript object spread `{...a, ...b}` keeps every field
    of `b` and the fields of `a` that `b` does not name, which is exactly
    Dafny's right-biased map union `a + b`. */
module Json {

  datatype Option<+T> = None | Some(value: T)

  datatype Value =
    | Null
    | Bool(b: bool)
    | Num(n: int)
    | Str(s: string)
    | Arr(items: seq<Value>)
    | Obj(fields: map<string, Value>)

  type Record = map<string, Value>

  /** The outcome of evaluating a JavaScript expression that may throw a
      TypeError (calling `toLowerCase` on a non-string, `some` on a
      non-array, or reading a property of `undefined`). */
  datatype Eval<+T> = Done(value: T) | TypeError

  /** `r.k`: the field's value, or None when the field is absent (`undefined`). */
  function Lookup(r: Record, k: string): (v: Option<Value>)
    ensures v.Some? <==> k in r
    ensures v.Some? ==> v.value == r[k]
  {
    if k in r then Some(r[k]) else None
  }

  /** `v?.k` for an arbitrary JSON value: only an object has fields; `null`,
      strings, numbers, booleans and arrays yield `undefined` for the field
      names this system reads. */
  function Field(v: Value, k: string): (f: Option<Value>)
    ensures f.Some? <==> v.Obj? && k in v.fields
    ensures f.Some? ==> f.value == v.fields[k]
  {
    if v.Obj? then Lookup(v.fields, k) else None
  }

  /** `r.k === s` for a string `s`: strict equality, so only a string field
      with the same characters matches (a number field never does). */
  predicate FieldIs(r: Record, k: string, s: string)
  {
    k in r && r[k] == Str(s)
  }

  /** The field is present and holds a string. */
  predicate HasString(r: Record, k: string)
  {
    k in r && r[k].Str?
  }
}

=== FILE: sequences.dfy ===
/** `Array.prototype.filter` and `Array.prototype.find`/`findIndex` over a
    collection, and what it means for one collection to be an order-preserving
    part of another. */
module Sequences {
  import opened Json

  /** `a` is an order-preserving subsequence of `b`: `a` is `b` with some
      elements left out and the rest in their original order. */
  predicate IsSubsequence<T(==)>(a: seq<T>, b: seq<T>)
    decreases |b|
  {
    a == [] || (b != [] && ((a[0] == b[0] && IsSubsequence(a[1..], b[1..])) || IsSubsequence(a, b[1..])))
  }

  /** `s.filter(p)` with a predicate that cannot throw. */
  function Filter<T(!new)>(s: seq<T>, p: T -> bool): (r: seq<T>)
    ensures |r| <= |s|
    ensures forall x :: x in r <==> x in s && p(x)
  {
    if s == [] then [] else (if p(s[0]) then [s[0]] else []) + Filter(s[1..], p)
  }

  /** A filter keeps every element that passes as often as it occurs, and
      no other: two equal records stored twice both survive. */
  lemma {:induction false} FilterCounts<T(!new)>(s: seq<T>, p: T -> bool)
    ensures forall x :: multiset(Filter(s, p))[x] == if p(x) then multiset(s)[x] else 0
  {
    if s != [] {
      FilterCounts(s[1..], p);
      assert s == [s[0]] + s[1..];
    }
  }

  /** `s.filter(p)` with a predicate that may throw: the first element whose
      test throws aborts the whole call. */
  function FilterEval<T(!new)>(s: seq<T>, p: T -> Eval<bool>): (r: Eval<seq<T>>)
    ensures r.Done? <==> forall x :: x in s ==> p(x).Done?
  {
    if s == [] then Done([])
    else match p(s[0])
      case TypeError => TypeError
      case Done(keep) =>
        match FilterEval(s[1..], p)
        case TypeError => TypeError
        case Done(rest) => Done((if keep then [s[0]] else []) + rest)
  }

  /** The survivors of a filter keep their relative order. */
  lemma {:induction false} FilterIsSubsequence<T(!new)>(s: seq<T>, p: T -> bool)
    ensures IsSubsequence(Filter(s, p), s)
  {
    if s != [] {
      FilterIsSubsequence(s[1..], p);
      if p(s[0]) {
        assert Filter(s, p)[1..] == Filter(s[1..], p);
      } else {
        assert Filter(s, p) == Filter(s[1..], p);
        SubsequenceOfTail(Filter(s, p), s);
      }
    }
  }

  /** Every collection is an order-preserving part of itself. */
  lemma {:induction false} SubsequenceOfItself<T>(s: seq<T>)
    ensures IsSubsequence(s, s)
  {
    if s != [] {
      SubsequenceOfItself(s[1..]);
    }
  }

  lemma SubsequenceOfTail<T>(a: seq<T>, b: seq<T>)
    requires b != [] && IsSubsequence(a, b[1..])
    ensures IsSubsequence(a, b)
  {
  }

  /** A filter that rejects nothing returns the collection unchanged. */
  lemma {:induction false} FilterKeepsAll<T(!new)>(s: seq<T>, p: T -> bool)
    requires forall x :: x in s ==> p(x)
    ensures Filter(s, p) == s
  {
    if s != [] {
      FilterKeepsAll(s[1..], p);
      assert [s[0]] + s[1..] == s;
    }
  }

  /** A filter that accepts nothing returns an empty collection. */
  lemma {:induction false} FilterRejectsAll<T(!new)>(s: seq<T>, p: T -> bool)
    requires forall x :: x in s ==> !p(x)
    ensures Filter(s, p) == []
  {
    if s != [] {
      FilterRejectsAll(s[1..], p);
    }
  }

  /** The filter keeps the length exactly when it rejects nothing: this is
      how a handler that compares counts learns whether anything matched. */
  lemma {:induction false} FilterLengthUnchangedIff<T(!new)>(s: seq<T>, p: T -> bool)
    ensures |Filter(s, p)| == |s| <==> forall x :: x in s ==> p(x)
  {
    if s != [] {
      FilterLengthUnchangedIff(s[1..], p);
      if !p(s[0]) {
        assert |Filter(s, p)| == |Filter(s[1..], p)| <= |s[1..]|;
      } else {
        assert forall x :: x in s ==> x == s[0] || x in s[1..];
      }
    } else {
      FilterKeepsAll(s, p);
    }
  }

  /** Filtering twice with the same test is filtering once. */
  lemma FilterIdempotent<T(!new)>(s: seq<T>, p: T -> bool)
    ensures Filter(Filter(s, p), p) == Filter(s, p)
  {
    FilterKeepsAll(Filter(s, p), p);
  }

  /** Filtering a collection with one more element at its end. */
  lemma {:induction false} FilterAppend<T(!new)>(s: seq<T>, x: T, p: T -> bool)
    ensures Filter(s + [x], p) == Filter(s, p) + (if p(x) then [x] else [])
  {
    if s == [] {
      assert [] + [x] == [x];
    } else {
      assert (s + [x])[1..] == s[1..] + [x];
      FilterAppend(s[1..], x, p);
    }
  }

  /** A filter whose test never throws agrees with the plain filter on the
      elements that test true. */
  lemma {:induction false} FilterEvalDone<T(!new)>(s: seq<T>, p: T -> Eval<bool>, q: T -> bool)
    requires forall x :: x in s ==> p(x).Done? && (q(x) <==> p(x).value)
    ensures FilterEval(s, p) == Done(Filter(s, q))
  {
    if s != [] {
      FilterEvalDone(s[1..], p, q);
    }
  }

  /** Two tests that agree on every element give the same filter result. */
  lemma {:induction false} FilterEvalAgree<T(!new)>(s: seq<T>, p: T -> Eval<bool>, q: T -> Eval<bool>)
    requires forall x :: x in s ==> p(x) == q(x)
    ensures FilterEval(s, p) == FilterEval(s, q)
  {
    if s != [] {
      FilterEvalAgree(s[1..], p, q);
    }
  }

  /** `s.findIndex(p)`: the position of the first element satisfying `p`, or
      -1 when there is none. */
  function FindIndex<T(!new)>(s: seq<T>, p: T -> bool): (i: int)
    ensures -1 <= i < |s|
    ensures i == -1 <==> forall x :: x in s ==> !p(x)
    ensures 0 <= i ==> p(s[i]) && forall j :: 0 <= j < i ==> !p(s[j])
  {
    if s == [] then -1
    else if p(s[0]) then 0
    else var k := FindIndex(s[1..], p); if k == -1 then -1 else k + 1
  }

  /** `s.find(p)`: the first element satisfying `p`, or `undefined`. */
  function Find<T(!new)>(s: seq<T>, p: T -> bool): (r: Option<T>)
    ensures r.None? <==> forall x :: x in s ==> !p(x)
    ensures r.Some? ==> r.value in s && p(r.value)
  {
    if s == [] then None
    else if p(s[0]) then Some(s[0])
    else Find(s[1..], p)
  }

  /** `find` returns the element at the position `findIndex` reports. */
  lemma {:induction false} FindAtFindIndex<T(!new)>(s: seq<T>, p: T -> bool)
    ensures Find(s, p) == if FindIndex(s, p) == -1 then None else Some(s[FindIndex(s, p)])
  {
    if s != [] && !p(s[0]) {
      FindAtFindIndex(s[1..], p);
    }
  }
}

=== FILE: server.dfy ===
/** The record logic of the HTTP handlers in server/server.js: lookups by id,
    the records the create and update handlers build, the filters the delete
    and list handlers apply, and the free-text booth search. The handlers
    themselves, which read and rewrite the stored collections, are the
    methods of `ServerStore.Store`. */
module Server {
  import opened Json
  import opened Text
  import opened Sequences
  import opened Uploads

  /** What a handler sends back: 200 with a body, 201 with the created
      record, 204 with no body, 404, or 500 when the handler threw. */
  datatype Response<+T> = Ok(body: T) | Created(body: T) | NoContent | NotFound | ServerError

  // ----- Matching by id ----------------------------------------------------

  /** `r.id === id` */
  predicate HasId(r: Record, id: string)
  {
    FieldIs(r, "id", id)
  }

  /** `b.eventId === eventId` */
  predicate BelongsTo(b: Record, eventId: string)
  {
    FieldIs(b, "eventId", eventId)
  }

  function IdIs(id: string): Record -> bool
  {
    r => HasId(r, id)
  }

  function IdIsNot(id: string): Record -> bool
  {
    r => !HasId(r, id)
  }

  function EventIdIs(eventId: string): Record -> bool
  {
    b => BelongsTo(b, eventId)
  }

  function EventIdIsNot(eventId: string): Record -> bool
  {
    b => !BelongsTo(b, eventId)
  }

  // ----- Events ------------------------------------------------------------

  /** `events.findIndex(e => e.id === id)`: the position of the first event
      with that id, or -1. */
  function EventIndex(events: seq<Record>, id: string): (i: int)
    ensures -1 <= i < |events|
    ensures i == -1 <==> forall e :: e in events ==> !HasId(e, id)
    ensures 0 <= i ==> HasId(events[i], id) && forall j :: 0 <= j < i ==> !HasId(events[j], id)
  {
    FindIndex(events, IdIs(id))
  }

  /** `events.find(e => e.id === id)`: the first event with that id, or
      None when no event has it. */
  function FindEvent(events: seq<Record>, id: string): (r: Option<Record>)
    ensures r.None? <==> forall e :: e in events ==> !HasId(e, id)
    ensures r.Some? ==> HasId(r.value, id) && r.value == events[EventIndex(events, id)]
  {
    FindAtFindIndex(events, IdIs(id));
    Find(events, IdIs(id))
  }

  /** The `image` field of a created event: the stored filename of the
      uploaded image, from which its clock reading and original name can be
      read back, or null when no image was uploaded. */
  function ImageValue(image: Option<Upload>): (v: Value)
    ensures v.Null? <==> image.None?
    ensures image.Some? ==> v.Str? && SplitAtFirstDash(v.s) == Some((Decimal(image.value.storedAt), image.value.originalName))
  {
    match image
    case Some(u) => StoredNameRoundTrip(u); Str(StoredName(u))
    case None => Null
  }

  /** `{ id: Date.now().toString(), ...body, image: ..., createdAt: now }`.
      A body field named `id` replaces the generated id; `image` and
      `createdAt` always come from the server. */
  function NewEvent(clock: nat, body: Record, image: Option<Upload>, now: string): (r: Record)
    ensures r.Keys == body.Keys + {"id", "image", "createdAt"}
    ensures r["id"] == if "id" in body then body["id"] else Str(Decimal(clock))
    ensures r["image"] == (if image.Some? then Str(StoredName(image.value)) else Null)
    ensures r["createdAt"] == Str(now)
    ensures forall k :: k in body && k != "image" && k != "createdAt" ==> r[k] == body[k]
  {
    map["id" := Str(Decimal(clock))] + body + map["image" := ImageValue(image), "createdAt" := Str(now)]
  }

  /** `{ ...existing, ...body, image: file ? file.filename : existing.image,
      updatedAt: now }` as it is stored. When no file was uploaded and the
      existing event has no `image`, the field is `undefined`, which JSON
      serialisation drops, so the stored record has no `image` at all, even
      if the body supplied one. */
  function MergeUpdate(existing: Record, body: Record, image: Option<Upload>, now: string): (r: Record)
    ensures r.Keys == (existing.Keys + body.Keys + {"updatedAt"} + (if image.Some? then {"image"} else {}))
                      - (if image.None? && "image" !in existing then {"image"} else {})
    ensures r["updatedAt"] == Str(now)
    ensures image.Some? ==> r["image"] == Str(StoredName(image.value))
    ensures image.None? && "image" in existing ==> r["image"] == existing["image"]
    ensures forall k :: k in body && k != "image" && k != "updatedAt" ==> r[k] == body[k]
    ensures forall k :: k in existing && k !in body && k != "image" && k != "updatedAt" ==> r[k] == existing[k]
  {
    var spread := existing + body;
    var withImage :=
      match image
      case Some(u) => spread["image" := Str(StoredName(u))]
      case None => if "image" in existing then spread["image" := existing["image"]] else spread - {"image"};
    withImage["updatedAt" := Str(now)]
  }

  /** `events.filter(e => e.id !== id)` */
  function RemoveEvent(events: seq<Record>, id: string): (r: seq<Record>)
    ensures forall e :: e in r <==> e in events && !HasId(e, id)
    ensures forall e :: multiset(r)[e] == if HasId(e, id) then 0 else multiset(events)[e]
    ensures IsSubsequence(r, events)
  {
    FilterCounts(events, IdIsNot(id));
    FilterIsSubsequence(events, IdIsNot(id));
    Filter(events, IdIsNot(id))
  }

  /** `booths.filter(b => b.eventId !== eventId)`: the cascade of an event
      delete. */
  function RemoveBoothsOf(booths: seq<Record>, eventId: string): (r: seq<Record>)
    ensures forall b :: b in r <==> b in booths && !BelongsTo(b, eventId)
    ensures forall b :: multiset(r)[b] == if BelongsTo(b, eventId) then 0 else multiset(booths)[b]
    ensures IsSubsequence(r, booths)
  {
    FilterCounts(booths, EventIdIsNot(eventId));
    FilterIsSubsequence(booths, EventIdIsNot(eventId));
    Filter(booths, EventIdIsNot(eventId))
  }

  /** Once an event is created with an id no stored event has, and the body
      does not supply its own id, looking up the generated id finds it. */
  lemma CreatedEventIsFound(events: seq<Record>, clock: nat, body: Record, image: Option<Upload>, now: string)
    requires "id" !in body
    requires forall e :: e in events ==> !HasId(e, Decimal(clock))
    ensures FindEvent(events + [NewEvent(clock, body, image, now)], Decimal(clock)) == Some(NewEvent(clock, body, image, now))
  {
    var created := NewEvent(clock, body, image, now);
    var s := events + [created];
    var i := EventIndex(s, Decimal(clock));
    assert HasId(created, Decimal(clock));
    assert s[|events|] == created;
  }

  /** An update whose body does not rename the event leaves it reachable by
      the same id, and a lookup then returns the updated record. */
  lemma UpdatedEventIsFound(events: seq<Record>, id: string, body: Record, image: Option<Upload>, now: string)
    requires EventIndex(events, id) >= 0
    requires "id" !in body
    ensures var i := EventIndex(events, id);
            FindEvent(events[i := MergeUpdate(events[i], body, image, now)], id) == Some(MergeUpdate(events[i], body, image, now))
  {
    var i := EventIndex(events, id);
    var updated := MergeUpdate(events[i], body, image, now);
    var s := events[i := updated];
    assert HasId(updated, id);
    var j := EventIndex(s, id);
    assert HasId(s[i], id);
  }

  /** After an event delete no event with that id remains and listing the
      booths of that id returns nothing. */
  lemma DeleteEventCascades(events: seq<Record>, booths: seq<Record>, id: string)
    requires id != ""
    ensures FindEvent(RemoveEvent(events, id), id) == None
    ensures BoothsForEvent(RemoveBoothsOf(booths, id), Some(id)) == []
  {
    FilterRejectsAll(RemoveBoothsOf(booths, id), EventIdIs(id));
  }

  /** Deleting an event twice leaves both collections as deleting it once
      does; the handler answers 204 both times. */
  lemma DeleteEventIdempotent(events: seq<Record>, booths: seq<Record>, id: string)
    ensures RemoveEvent(RemoveEvent(events, id), id) == RemoveEvent(events, id)
    ensures RemoveBoothsOf(RemoveBoothsOf(booths, id), id) == RemoveBoothsOf(booths, id)
  {
    FilterIdempotent(events, IdIsNot(id));
    FilterIdempotent(booths, EventIdIsNot(id));
  }

  // ----- Booths ------------------------------------------------------------

  /** `if (eventId)`: the query parameter is truthy when present and not the
      empty string. */
  predicate Truthy(param: Option<string>)
  {
    param.Some? && param.value != ""
  }

  /** GET /api/booths: with a truthy `eventId`, the booths of that event in
      store order; otherwise every booth. */
  function BoothsForEvent(booths: seq<Record>, eventId: Option<string>): (r: seq<Record>)
    ensures IsSubsequence(r, booths)
    ensures Truthy(eventId) ==> forall b :: b in r <==> b in booths && BelongsTo(b, eventId.value)
    ensures Truthy(eventId) ==> forall b :: multiset(r)[b] == if BelongsTo(b, eventId.value) then multiset(booths)[b] else 0
    ensures !Truthy(eventId) ==> r == booths
  {
    if Truthy(eventId) then
      FilterCounts(booths, EventIdIs(eventId.value));
      FilterIsSubsequence(booths, EventIdIs(eventId.value));
      Filter(booths, EventIdIs(eventId.value))
    else
      SubsequenceOfItself(booths);
      booths
  }

  /** `{ id: Date.now().toString(), ...body, photos: <stored names>,
      createdAt: now }`. Nothing checks that `eventId` is present or names
      an existing event. */
  function NewBooth(clock: nat, body: Record, photos: seq<Upload>, now: string): (r: Record)
    ensures r.Keys == body.Keys + {"id", "photos", "createdAt"}
    ensures r["id"] == if "id" in body then body["id"] else Str(Decimal(clock))
    ensures r["photos"] == Arr(StoredNames(photos))
    ensures r["createdAt"] == Str(now)
    ensures forall k :: k in body && k != "photos" && k != "createdAt" ==> r[k] == body[k]
  {
    map["id" := Str(Decimal(clock))] + body + map["photos" := Arr(StoredNames(photos)), "createdAt" := Str(now)]
  }

  /** A booth created for any `eventId`, existing or not, is listed under
      that id right after the booths that were already there. With an empty
      `eventId` the listing is every booth, and the new one is still last. */
  lemma CreatedBoothIsListed(booths: seq<Record>, clock: nat, body: Record, photos: seq<Upload>, now: string, eventId: string)
    requires FieldIs(body, "eventId", eventId)
    ensures BoothsForEvent(booths + [NewBooth(clock, body, photos, now)], Some(eventId))
         == BoothsForEvent(booths, Some(eventId)) + [NewBooth(clock, body, photos, now)]
  {
    FilterAppend(booths, NewBooth(clock, body, photos, now), EventIdIs(eventId));
  }

  /** `booths.filter(b => b.id !== id)` */
  function RemoveBooth(booths: seq<Record>, id: string): (r: seq<Record>)
    ensures forall b :: b in r <==> b in booths && !HasId(b, id)
    ensures forall b :: multiset(r)[b] == if HasId(b, id) then 0 else multiset(booths)[b]
    ensures IsSubsequence(r, booths)
  {
    FilterCounts(booths, IdIsNot(id));
    FilterIsSubsequence(booths, IdIsNot(id));
    Filter(booths, IdIsNot(id))
  }

  /** The booth delete answers 404 exactly when the count is unchanged,
      which is exactly when no booth had that id. */
  lemma BoothDeleteNotFoundIff(booths: seq<Record>, id: string)
    ensures |RemoveBooth(booths, id)| == |booths| <==> forall b :: b in booths ==> !HasId(b, id)
  {
    FilterLengthUnchangedIff(booths, IdIsNot(id));
  }

  /** Deleting a booth a second time finds nothing and leaves the
      collection as it is. */
  lemma BoothDeleteTwice(booths: seq<Record>, id: string)
    ensures RemoveBooth(RemoveBooth(booths, id), id) == RemoveBooth(booths, id)
    ensures |RemoveBooth(RemoveBooth(booths, id), id)| == |RemoveBooth(booths, id)|
  {
    FilterIdempotent(booths, IdIsNot(id));
  }

  // ----- Search ------------------------------------------------------------

  /** `v.toLowerCase()` on a field read without a guard: only a string can
      be lowered; anything else, `undefined` included, throws. */
  function LowerField(v: Option<Value>): (r: Eval<string>)
    ensures r.Done? <==> v.Some? && v.value.Str?
    ensures r.Done? ==> r.value == Lower(v.value.s)
  {
    if v.Some? && v.value.Str? then Done(Lower(v.value.s)) else TypeError
  }

  /** A product that is a string containing the (lowered) query. */
  predicate ProductHit(p: Value, lq: string)
  {
    p.Str? && Includes(Lower(p.s), lq)
  }

  /** `products.some(p => p.toLowerCase().includes(q))` with `q` already
      lowered: stops at the first product that matches; a non-string
      product reached before any match throws. */
  function SomeProductIncludes(products: seq<Value>, lq: string): (r: Eval<bool>)
    ensures r == Done(false) <==> forall i :: 0 <= i < |products| ==> products[i].Str? && !ProductHit(products[i], lq)
    ensures r == TypeError ==> exists i :: 0 <= i < |products| && !products[i].Str?
    ensures r == Done(true) ==> exists i :: 0 <= i < |products| && ProductHit(products[i], lq)
    ensures (forall i :: 0 <= i < |products| ==> products[i].Str?) ==>
              r == Done(exists i :: 0 <= i < |products| && ProductHit(products[i], lq))
    ensures r == TypeError <==> exists i :: 0 <= i < |products| && !products[i].Str?
                                           && forall j :: 0 <= j < i ==> !ProductHit(products[j], lq)
  {
    if products == [] then Done(false)
    else if !products[0].Str? then TypeError
    else if Includes(Lower(products[0].s), lq) then Done(true)
    else
      var r := SomeProductIncludes(products[1..], lq);
      assert forall i :: 1 <= i < |products| ==> products[i] == products[1..][i - 1];
      r
  }

  /** What the search looks for: the booth's name, its description or one
      of its products is a string that contains the lowered query once
      lowered itself. */
  predicate MentionsQuery(b: Record, lq: string)
  {
    || (HasString(b, "name") && Includes(Lower(b["name"].s), lq))
    || (HasString(b, "description") && Includes(Lower(b["description"].s), lq))
    || ("products" in b && b["products"].Arr? &&
        exists i :: 0 <= i < |b["products"].items| && ProductHit(b["products"].items[i], lq))
  }

  /** A booth as the search expects it: string name and description and an
      array of string products. */
  predicate SearchableBooth(b: Record)
  {
    && HasString(b, "name") && HasString(b, "description")
    && "products" in b && b["products"].Arr?
    && forall i :: 0 <= i < |b["products"].items| ==> b["products"].items[i].Str?
  }

  /** The search test of one booth:
      `booth.name.toLowerCase().includes(query.toLowerCase()) ||
       booth.description.toLowerCase().includes(query.toLowerCase()) ||
       booth.products.some(...)`, evaluated left to right with short
      circuits. A missing query (`query` is `undefined`) throws once the name
      has been lowered. When the test does not throw, the name is a string,
      the query is present, and the booth passes exactly when it mentions
      the query; on a searchable booth with a query it never throws. */
  function SearchMatch(b: Record, query: Option<string>): (r: Eval<bool>)
    ensures r.Done? ==> HasString(b, "name") && query.Some? && (r.value <==> MentionsQuery(b, Lower(query.value)))
    ensures SearchableBooth(b) && query.Some? ==> r.Done?
  {
    match LowerField(Lookup(b, "name"))
    case TypeError => TypeError
    case Done(name) =>
      if query.None? then TypeError
      else if Includes(name, Lower(query.value)) then Done(true)
      else match LowerField(Lookup(b, "description"))
        case TypeError => TypeError
        case Done(description) =>
          if Includes(description, Lower(query.value)) then Done(true)
          else match Lookup(b, "products")
            case Some(Arr(products)) => SomeProductIncludes(products, Lower(query.value))
            case _ => TypeError
  }

  function SearchTest(query: Option<string>): Record -> Eval<bool>
  {
    b => SearchMatch(b, query)
  }

  function SearchHit(query: Option<string>): Record -> bool
  {
    b => SearchMatch(b, query) == Done(true)
  }

  /** GET /api/booths/search: the booths that pass the search test, in store
      order, each as often as it is stored; the whole search throws when the
      test throws on any booth. */
  function Search(booths: seq<Record>, query: Option<string>): (r: Eval<seq<Record>>)
    ensures r.Done? <==> forall b :: b in booths ==> SearchMatch(b, query).Done?
    ensures r.Done? ==> IsSubsequence(r.value, booths)
    ensures r.Done? ==> forall b :: b in r.value <==> b in booths && SearchMatch(b, query) == Done(true)
    ensures r.Done? && query.Some? ==>
              forall b :: multiset(r.value)[b] == if MentionsQuery(b, Lower(query.value)) then multiset(booths)[b] else 0
  {
    var r := FilterEval(booths, SearchTest(query));
    if r.Done? then
      FilterEvalDone(booths, SearchTest(query), SearchHit(query));
      FilterIsSubsequence(booths, SearchHit(query));
      FilterCounts(booths, SearchHit(query));
      r
    else r
  }

  /** A booth whose name, or (with a string name) whose description,
      contains the query in lower case passes the search test, whatever its
      other fields hold. */
  lemma SearchMatchesIgnoringCase(b: Record, field: string, q: string)
    requires field == "name" || field == "description"
    requires HasString(b, "name") && HasString(b, field)
    requires Includes(Lower(b[field].s), Lower(q))
    ensures SearchMatch(b, Some(q)) == Done(true)
  {
  }

  /** A booth with string name and description and an array of string
      products, one of which contains the query in lower case, passes the
      search test. */
  lemma SearchFindsByProduct(b: Record, q: string, i: int)
    requires HasString(b, "name") && HasString(b, "description")
    requires "products" in b && b["products"].Arr?
    requires forall j :: 0 <= j < |b["products"].items| ==> b["products"].items[j].Str?
    requires 0 <= i < |b["products"].items| && ProductHit(b["products"].items[i], Lower(q))
    ensures SearchMatch(b, Some(q)) == Done(true)
  {
  }

  /** Over searchable booths the search answers 200, and when no booth
      mentions the query the answer is the empty list, not an error. */
  lemma SearchSearchable(booths: seq<Record>, q: string)
    requires forall b :: b in booths ==> SearchableBooth(b)
    ensures Search(booths, Some(q)).Done?
    ensures (forall b :: b in booths ==> !MentionsQuery(b, Lower(q))) ==> Search(booths, Some(q)) == Done([])
  {
    if forall b :: b in booths ==> !MentionsQuery(b, Lower(q)) {
      FilterEvalDone(booths, SearchTest(Some(q)), SearchHit(Some(q)));
      FilterRejectsAll(booths, SearchHit(Some(q)));
    }
  }

  /** Queries that lower to the same string find the same booths: "silk"
      and "SILK" are the same search. */
  lemma SearchCaseInsensitive(booths: seq<Record>, q1: string, q2: string)
    requires Lower(q1) == Lower(q2)
    ensures Search(booths, Some(q1)) == Search(booths, Some(q2))
  {
    FilterEvalAgree(booths, SearchTest(Some(q1)), SearchTest(Some(q2)));
  }

  /** The search lowers the query itself, so a client that lowers it first
      gets the same answer. */
  lemma SearchLoweredQuery(booths: seq<Record>, q: string)
    ensures Search(booths, Some(Lower(q))) == Search(booths, Some(q))
  {
    LowerIdempotent(q);
    SearchCaseInsensitive(booths, Lower(q), q);
  }

  /** A booth without `products` whose name and description both miss the
      query makes the search throw. */
  lemma SearchThrowsWithoutProducts(booths: seq<Record>, b: Record, q: string)
    requires b in booths
    requires "products" !in b
    requires HasString(b, "name") && HasString(b, "description")
    requires !Includes(Lower(b["name"].s), Lower(q)) && !Includes(Lower(b["description"].s), Lower(q))
    ensures Search(booths, Some(q)) == TypeError
  {
  }

  /** With an empty query every booth whose name is a string matches on the
      name alone, so the search returns every booth, or throws when some
      booth has no string name. */
  lemma SearchEmptyQuery(booths: seq<Record>)
    ensures Search(booths, Some("")) == if forall b :: b in booths ==> HasString(b, "name") then Done(booths) else TypeError
  {
    forall b: Record | b in booths && HasString(b, "name")
      ensures SearchMatch(b, Some("")) == Done(true)
    {
      var name: string := b["name"].s;
      IncludesEmpty(Lower(name));
    }
    if forall b :: b in booths ==> HasString(b, "name") {
      FilterEvalDone(booths, SearchTest(Some("")), SearchHit(Some("")));
      FilterKeepsAll(booths, SearchHit(Some("")));
    }
  }

  /** Without a `query` parameter the search throws as soon as there is a
      booth to test, and returns an empty list otherwise. */
  lemma SearchWithoutQuery(booths: seq<Record>)
    ensures Search(booths, None) == if booths == [] then Done([]) else TypeError
  {
  }
}

=== FILE: store.dfy ===
/** The route handlers of server/server.js over the two stored collections.
    The GET handlers only read a collection; every handler that changes one
    reads it whole, filters it, appends to it or updates one position, and
    writes the whole collection back. The two fields hold what the two JSON
    files hold between requests. */
module ServerStore {
  import opened Json
  import opened Text
  import opened Sequences
  import opened Uploads
  import opened Server

  /** Every stored event has an `id` and a `createdAt`; every stored booth
      has an `id`, a `photos` array and a `createdAt`. The handlers create
      records only in this shape and never remove these fields. */
  ghost predicate Stamped(events: seq<Record>, booths: seq<Record>)
  {
    && (forall e :: e in events ==> "id" in e && "createdAt" in e)
    && (forall b :: b in booths ==> "id" in b && "createdAt" in b && "photos" in b)
  }

  class Store {
    var events: seq<Record>
    var booths: seq<Record>

    /** Start-up: a missing or empty data file (None) is initialised to an
        empty collection; a file with content keeps it. */
    constructor Open(eventsFile: Option<seq<Record>>, boothsFile: Option<seq<Record>>)
      ensures events == (if eventsFile.None? then [] else eventsFile.value)
      ensures booths == (if boothsFile.None? then [] else boothsFile.value)
      ensures eventsFile.None? && boothsFile.None? ==> Stamped(events, booths)
    {
      events := if eventsFile.None? then [] else eventsFile.value;
      booths := if boothsFile.None? then [] else boothsFile.value;
    }

    /** GET /api/events: every event, in store order. */
    method ListEvents() returns (r: Response<seq<Record>>)
      ensures r == Ok(events)
    {
      r := Ok(events);
    }

    /** GET /api/events/:id: the first event with that id, or 404 when no
        event has it. */
    method GetEvent(id: string) returns (r: Response<Record>)
      ensures r.Ok? || r.NotFound?
      ensures r.NotFound? <==> forall e :: e in events ==> !HasId(e, id)
      ensures r.Ok? ==> HasId(r.body, id) && r.body == events[EventIndex(events, id)]
    {
      var found := FindEvent(events, id);
      if found.None? {
        r := NotFound;
      } else {
        r := Ok(found.value);
      }
    }

    /** POST /api/events: appends the new event at the end and answers 201
        with it. `clock` is `Date.now()`, `now` the ISO time, `image` the
        file the upload middleware accepted, if any. */
    method CreateEvent(body: Record, image: Option<Upload>, clock: nat, now: string) returns (r: Response<Record>)
      modifies this
      ensures r == Created(NewEvent(clock, body, image, now))
      ensures events == old(events) + [r.body]
      ensures booths == old(booths)
      ensures old(Stamped(events, booths)) ==> Stamped(events, booths)
    {
      var created := NewEvent(clock, body, image, now);
      events := events + [created];
      r := Created(created);
    }

    /** PUT /api/events/:id: merges the body into the first event with that
        id, in place; 404 and no change when there is none. */
    method UpdateEvent(id: string, body: Record, image: Option<Upload>, now: string) returns (r: Response<Record>)
      modifies this
      ensures booths == old(booths)
      ensures var i := EventIndex(old(events), id);
              if i == -1 then r == NotFound && events == old(events)
              else r == Ok(MergeUpdate(old(events)[i], body, image, now)) && events == old(events)[i := r.body]
      ensures |events| == |old(events)|
      ensures old(Stamped(events, booths)) ==> Stamped(events, booths)
    {
      var index := EventIndex(events, id);
      if index == -1 {
        r := NotFound;
        return;
      }
      var updated := MergeUpdate(events[index], body, image, now);
      events := events[index := updated];
      r := Ok(updated);
    }

    /** DELETE /api/events/:id: removes every event with that id and every
        booth of that event, and answers 204 whether or not anything was
        removed. */
    method DeleteEvent(id: string) returns (r: Response<()>)
      modifies this
      ensures r == NoContent
      ensures events == RemoveEvent(old(events), id)
      ensures booths == RemoveBoothsOf(old(booths), id)
      ensures old(Stamped(events, booths)) ==> Stamped(events, booths)
    {
      events := RemoveEvent(events, id);
      booths := RemoveBoothsOf(booths, id);
      r := NoContent;
    }

    /** GET /api/booths?eventId=...: the booths of one event, or all booths
        when the parameter is absent or empty. */
    method ListBooths(eventId: Option<string>) returns (r: Response<seq<Record>>)
      ensures r == Ok(BoothsForEvent(booths, eventId))
      ensures r.Ok? && IsSubsequence(r.body, booths)
      ensures Truthy(eventId) ==> forall b :: b in r.body <==> b in booths && BelongsTo(b, eventId.value)
      ensures Truthy(eventId) ==> forall b :: multiset(r.body)[b] == if BelongsTo(b, eventId.value) then multiset(booths)[b] else 0
      ensures !Truthy(eventId) ==> r.body == booths
    {
      r := Ok(BoothsForEvent(booths, eventId));
    }

    /** POST /api/booths: appends the new booth at the end and answers 201
        with it; `photos` are the files the upload middleware accepted, in
        upload order. */
    method CreateBooth(body: Record, photos: seq<Upload>, clock: nat, now: string) returns (r: Response<Record>)
      modifies this
      ensures r == Created(NewBooth(clock, body, photos, now))
      ensures booths == old(booths) + [r.body]
      ensures events == old(events)
      ensures old(Stamped(events, booths)) ==> Stamped(events, booths)
    {
      var created := NewBooth(clock, body, photos, now);
      booths := booths + [created];
      r := Created(created);
    }

    /** DELETE /api/booths/:id: removes every booth with that id and writes
        the collection back; 404 exactly when no booth had that id. */
    method DeleteBooth(id: string) returns (r: Response<()>)
      modifies this
      ensures booths == RemoveBooth(old(booths), id)
      ensures events == old(events)
      ensures r.NoContent? || r.NotFound?
      ensures r.NotFound? <==> forall b :: b in old(booths) ==> !HasId(b, id)
      ensures r.NotFound? ==> booths == old(booths)
      ensures old(Stamped(events, booths)) ==> Stamped(events, booths)
    {
      var initialCount := |booths|;
      var remaining := RemoveBooth(booths, id);
      BoothDeleteNotFoundIff(booths, id);
      if initialCount == |remaining| {
        FilterKeepsAll(booths, IdIsNot(id));
      }
      booths := remaining;
      if initialCount == |booths| {
        r := NotFound;
        return;
      }
      r := NoContent;
    }

    /** GET /api/booths/search?query=...: the matching booths in store order,
        or 500 when the search test throws on some booth. */
    method SearchBooths(query: Option<string>) returns (r: Response<seq<Record>>)
      ensures r.Ok? || r.ServerError?
      ensures r.ServerError? <==> exists b :: b in booths && SearchMatch(b, query) == TypeError
      ensures r.Ok? ==> IsSubsequence(r.body, booths)
      ensures r.Ok? ==> forall b :: b in r.body <==> b in booths && SearchMatch(b, query) == Done(true)
      ensures r.Ok? ==> Search(booths, query) == Done(r.body)
      ensures r.ServerError? <==> Search(booths, query) == TypeError
    {
      var results := Search(booths, query);
      if results.TypeError? {
        r := ServerError;
      } else {
        r := Ok(results.value);
      }
    }
  }
}

=== FILE: text.dfy ===
/** The string operations the core relies on: `toLowerCase`, `includes` and
    the decimal rendering of a number (`Date.now().toString()`, and
    `Date.now() + '-' + name`). */
module Text {

  /** ASCII lowering of one character. JavaScript's `toLowerCase` applies the
      full Unicode case mapping; only the ASCII part is modelled. */
  function LowerChar(c: char): char
  {
    if 'A' <= c <= 'Z' then (c as int + 32) as char else c
  }

  /** `s.toLowerCase()`, character by character. */
  function Lower(s: string): string
  {
    seq(|s|, i requires 0 <= i < |s| => LowerChar(s[i]))
  }

  /** Lowering twice is lowering once, so lowering the query again (as both
      filters do on every call) does not change what it matches. */
  lemma LowerIdempotent(s: string)
    ensures Lower(Lower(s)) == Lower(s)
  {
  }

  /** `sub` occurs in `s` starting at position `i`. */
  predicate OccursAt(s: string, sub: string, i: int)
  {
    0 <= i <= |s| && sub <= s[i..]
  }

  /** `s.includes(sub)`: scan `s` from the left for an occurrence of `sub`. */
  predicate Includes(s: string, sub: string)
    decreases |s|
  {
    sub <= s || (s != [] && Includes(s[1..], sub))
  }

  /** `includes` holds exactly when `sub` occurs at some position of `s`. */
  lemma {:induction false} IncludesIff(s: string, sub: string)
    ensures Includes(s, sub) <==> exists i :: OccursAt(s, sub, i)
    decreases |s|
  {
    if sub <= s {
      assert OccursAt(s, sub, 0);
    } else if s == [] {
    } else {
      IncludesIff(s[1..], sub);
      if Includes(s[1..], sub) {
        var j :| OccursAt(s[1..], sub, j);
        assert s[1..][j..] == s[j + 1..];
        assert OccursAt(s, sub, j + 1);
      }
      forall i | OccursAt(s, sub, i) ensures Includes(s[1..], sub) {
        assert i != 0;
        assert s[i..] == s[1..][i - 1..];
        assert OccursAt(s[1..], sub, i - 1);
      }
    }
  }

  /** The empty string is included in every string. */
  lemma IncludesEmpty(s: string)
    ensures Includes(s, [])
  {
  }

  // ----- Decimal rendering -------------------------------------------------

  predicate IsDigit(c: char)
  {
    '0' <= c <= '9'
  }

  function DigitChar(d: nat): (c: char)
    requires d < 10
    ensures IsDigit(c)
    ensures c as int - '0' as int == d
  {
    (d + '0' as int) as char
  }

  /** `n.toString()` for a non-negative integer: its decimal digits, most
      significant first, without leading zeros. */
  function Decimal(n: nat): (r: string)
    ensures |r| >= 1
    ensures forall i :: 0 <= i < |r| ==> IsDigit(r[i])
    ensures n >= 10 <==> |r| >= 2
    decreases n
  {
    if n < 10 then [DigitChar(n)] else Decimal(n / 10) + [DigitChar(n % 10)]
  }

  /** Distinct numbers render differently: two clock readings that differ
      give two different identifiers. */
  lemma {:induction false} DecimalInjective(a: nat, b: nat)
    requires Decimal(a) == Decimal(b)
    ensures a == b
    decreases a
  {
    if a >= 10 && b >= 10 {
      var da, db := Decimal(a), Decimal(b);
      assert da[|da| - 1] == DigitChar(a % 10);
      assert db[|db| - 1] == DigitChar(b % 10);
      assert da[..|da| - 1] == Decimal(a / 10);
      assert db[..|db| - 1] == Decimal(b / 10);
      DecimalInjective(a / 10, b / 10);
    } else if a < 10 && b < 10 {
      assert Decimal(a)[0] == DigitChar(a);
      assert Decimal(b)[0] == DigitChar(b);
    }
  }
}

=== FILE: uploads.dfy ===
/** Uploaded files as the upload middleware hands them to the handlers. Each
    accepted file is stored under the name "<clock>-<original name>", where
    <clock> is the millisecond clock read when that file was stored. */
module Uploads {
  import opened Json
  import opened Text

  /** One accepted file: its name on the client and the clock reading taken
      when the middleware stored it. */
  datatype Upload = Upload(originalName: string, storedAt: nat)

  /** The stored filename: the clock value in decimal, a dash, the original
      name. */
  function StoredName(u: Upload): (name: string)
    ensures |name| == |Decimal(u.storedAt)| + 1 + |u.originalName|
    ensures name[|Decimal(u.storedAt)|] == '-'
    ensures Decimal(u.storedAt) <= name
    ensures name[|Decimal(u.storedAt)| + 1..] == u.originalName
  {
    Decimal(u.storedAt) + "-" + u.originalName
  }

  /** The stored filenames of a list of uploads, in upload order
      (`files.map(f => f.filename)`). */
  function StoredNames(files: seq<Upload>): (names: seq<Value>)
    ensures |names| == |files|
    ensures forall i :: 0 <= i < |files| ==> names[i] == Str(StoredName(files[i]))
  {
    if files == [] then [] else [Str(StoredName(files[0]))] + StoredNames(files[1..])
  }

  /** Splits a stored filename at its first dash into the clock prefix and
      the rest; None when there is no dash. */
  function SplitAtFirstDash(s: string): Option<(string, string)>
  {
    if s == [] then None
    else if s[0] == '-' then Some(([], s[1..]))
    else match SplitAtFirstDash(s[1..])
      case None => None
      case Some(parts) => Some(([s[0]] + parts.0, parts.1))
  }

  lemma {:induction false} SplitSkipsDigits(digits: string, rest: string)
    requires forall i :: 0 <= i < |digits| ==> IsDigit(digits[i])
    ensures SplitAtFirstDash(digits + "-" + rest) == Some((digits, rest))
  {
    if digits != [] {
      assert (digits + "-" + rest)[1..] == digits[1..] + "-" + rest;
      SplitSkipsDigits(digits[1..], rest);
      assert [digits[0]] + digits[1..] == digits;
    } else {
      assert digits + "-" + rest == ['-'] + rest;
    }
  }

  /** The naming rule loses nothing: the clock value and the original name
      can be read back from the stored name, because the decimal prefix holds
      no dash. Together with `Text.DecimalInjective` this means the clock
      reading is determined by the stored name. */
  lemma StoredNameRoundTrip(u: Upload)
    ensures SplitAtFirstDash(StoredName(u)) == Some((Decimal(u.storedAt), u.originalName))
  {
    SplitSkipsDigits(Decimal(u.storedAt), u.originalName);
  }

  /** Two uploads of the same original name stored at different clock
      readings get different stored names. */
  lemma StoredNamesDiffer(u: Upload, v: Upload)
    requires u.storedAt != v.storedAt
    ensures StoredName(u) != StoredName(v)
  {
    if StoredName(u) == StoredName(v) {
      StoredNameRoundTrip(u);
      StoredNameRoundTrip(v);
      DecimalInjective(u.storedAt, v.storedAt);
    }
  }
}
